=== FILE: README.md ===
# WWDC16 sessions importer — a Dafny model

The WWDC16 sessions importer is a small Swift command-line tool. It reads a
catalog of WWDC sessions (`sessions.json`) and decodes every record into a
typed `Video`. It sorts the videos in descending id order, keeps the 2016
sessions, and opens one GitHub issue per session. This project models the
pure part of that tool and proves properties of the model. The model starts
from an already-parsed JSON document and stops at the structured issue body
(title, description text, labels) that would be serialised and sent.

The modules follow the source file's structure:

- `Wrappers`: `Option` and `Result`. They stand for Swift optionals, thrown
  errors and `fatalError`.
- `Sequences`: associativity of concatenation, shared by the proofs.
- `Document`: the untyped JSON value (`Str | Int | Arr | Obj | Other`) and
  the checked casts the importer applies (`as? String`, `as? Int`,
  `as? [String: AnyObject]`, `as? [T]`).
- `Labels`: the `Platform` and `Track` raw-value enums, with
  `init(rawValue:)` modelled as `PlatformFromRaw` and `TrackFromRaw`.
- `Parser`: the field extractor. `Fetch` is `fetch(key)`.
  `FetchTransformed` is `fetch(key, transformation:)` and is strict.
  `FetchArray` is `fetchArray(key, transformation:)` and is lenient: it
  uses `flatMap` (modelled as `FilterMap`) and silently drops rejected
  elements.
- `Videos`: the `Video` record and its all-or-nothing decoder `Decode`
  (`Video.init(dictionary:)`).
- `Importer`: catalog assembly, the part of `importSessions` after parsing.
  A record that fails to decode ends the run through `fatalError`; here
  that is a whole-load failure (`RecordRejected`), not a skipped record.
- `Selection`: the descending sort on `id` (`l.id > r.id`) and the
  `year == 2016` guard of the publishing loop.
- `Issues`: the title `"id: title"`, the label list (the track, then the
  focus platforms), and the description (permalink, description, keyword
  line).
- `Pipeline`: the script up to the network. It loads, sorts, filters and
  derives one issue per selected session, in request order.

The keyword line is modelled as the source writes it. The loop appends `"."`
after every label that is *equal in value* to the last label, and `", "`
after every other label. So when a focus list repeats its last platform, the
line contains more than one period. For example, focus `[iOS, iOS]` gives
`Keywords: Design, iOS.iOS.`. A position-based reference definition is kept
beside it. `Issues.KeywordsPositionalIff` proves that the two agree exactly
when no earlier label repeats the last one.

Three points where the model follows the code closely:

- Swift's `sort` promises no stability, so the model states only the order
  and the permutation. The order of videos with equal ids is not promised.
- The script sorts the whole catalog and then skips non-2016 videos while
  publishing. The model does the same: `Select` is
  `FilterYear(SortByIdDescending(…))`.
- The keyword terminator compares label values, not positions, and the
  model keeps that.

## Model

| member | source | states |
|---|---|---|
| Labels.PlatformFromRaw | WWDCSessionsImporter/WWDCSessionsImporter/main.swift:7-12 | `Platform(rawValue: s)` is `p` exactly when `p`'s raw value is `s`; it is nil for every string outside the four platform names |
| Labels.TrackFromRaw | WWDCSessionsImporter/WWDCSessionsImporter/main.swift:15-24 | `Track(rawValue: s)` is `t` exactly when `t`'s raw value is `s`; it is nil for every string outside the eight track labels |
| Labels.PlatformRawValueRoundTrip | WWDCSessionsImporter/WWDCSessionsImporter/main.swift:7-12 | `Platform(rawValue: p.rawValue) == p` for every platform |
| Labels.TrackRawValueRoundTrip | WWDCSessionsImporter/WWDCSessionsImporter/main.swift:15-24 | `Track(rawValue: t.rawValue) == t` for every track |
| Labels.TrackAndPlatformLabelsDisjoint | WWDCSessionsImporter/WWDCSessionsImporter/main.swift:7-24 | no track label is a platform label, in either direction of the raw-value mapping |
| Document.AsString | WWDCSessionsImporter/WWDCSessionsImporter/main.swift:148 | `as? String` (`fetch` with `T = String`) succeeds exactly on a JSON string and yields that string |
| Document.AsInt | WWDCSessionsImporter/WWDCSessionsImporter/main.swift:148 | `as? Int` (`fetch` with `T = Int`) succeeds exactly on a JSON integer and yields that integer |
| Document.AsObject | WWDCSessionsImporter/WWDCSessionsImporter/main.swift:110 | the element cast of `as? [[String: AnyObject]]` succeeds exactly on a JSON object and yields its fields |
| Document.CastAll | WWDCSessionsImporter/WWDCSessionsImporter/main.swift:163 | casting an array to `[T]` succeeds exactly when every element casts, and then keeps length and element order |
| Document.ArrayOf | WWDCSessionsImporter/WWDCSessionsImporter/main.swift:110 | `as? [T]` succeeds only on an array whose elements all cast to `T`, and yields them in order |
| Parser.Fetch | WWDCSessionsImporter/WWDCSessionsImporter/main.swift:143-152 | fails with a missing-key error exactly when the key is absent, and with a wrong-type error carrying the key and the value found when the cast fails; otherwise returns the stored value, cast |
| Parser.FetchTransformed | WWDCSessionsImporter/WWDCSessionsImporter/main.swift:154-160 | succeeds exactly when the fetch succeeds and the transformation yields a value, and returns that value; fetch errors pass through; a rejected value fails with a not-transformed error |
| Parser.FilterMap | WWDCSessionsImporter/WWDCSessionsImporter/main.swift:164 | `flatMap` never lengthens its input; it keeps everything when every element maps and nothing when none does |
| Parser.FilterMapEnumerates | WWDCSessionsImporter/WWDCSessionsImporter/main.swift:164 | `flatMap` returns exactly the non-nil transform results in original order: there is a strictly increasing list of the accepted positions, covering all of them, whose images are the output |
| Parser.FilterMapAppend | WWDCSessionsImporter/WWDCSessionsImporter/main.swift:164 | `flatMap` distributes over concatenation |
| Parser.FetchArray | WWDCSessionsImporter/WWDCSessionsImporter/main.swift:162-165 | succeeds exactly when the key holds an array of `T`; the output is the `flatMap` of the transform over that array and is never longer than it; failures are the fetch's missing-key or wrong-type errors |
| Parser.FetchArrayIgnoresTransform | WWDCSessionsImporter/WWDCSessionsImporter/main.swift:162-165 | success does not depend on the transformation, so an unmatched element never makes the array fail |
| Videos.Decode | WWDCSessionsImporter/WWDCSessionsImporter/main.swift:35-53 | `Video.init(dictionary:)`: fetches the six fields in source order and stops at the first failure; its contract is carried by `DecodeSucceedsIffWellFormed`, `DecodeCopiesFields`, `DecodeReportsFirstBadField` and `DecodeErrorKind` |
| Videos.WellFormedAgree | WWDCSessionsImporter/WWDCSessionsImporter/main.swift:40-49 | checking the six fields by their position in the fetch order is the same as checking them by name, so the success and first-bad-field lemmas speak of one notion of a well-formed record |
| Videos.DecodeSucceedsIffWellFormed | WWDCSessionsImporter/WWDCSessionsImporter/main.swift:35-53 | a record decodes exactly when id, title and description are strings, focus is an array of strings, track is a known track label and year is an integer |
| Videos.DecodeCopiesFields | WWDCSessionsImporter/WWDCSessionsImporter/main.swift:40-49 | a decoded video copies id, title, description, track and year verbatim, and its focus is the known platforms of the focus strings, in order |
| Videos.DecodeReportsFirstBadField | WWDCSessionsImporter/WWDCSessionsImporter/main.swift:39-53 | a failed decode names the first field, in the order id, title, description, focus, track, year, that is ill formed; every field before it is well formed |
| Videos.DecodeErrorKind | WWDCSessionsImporter/WWDCSessionsImporter/main.swift:39-53 | the error of a failed decode is missing-key exactly when the named key is absent, and not-transformed exactly for a string track with an unknown label |
| Videos.UnknownTrackFailsRecord | WWDCSessionsImporter/WWDCSessionsImporter/main.swift:46-48 | with the earlier fields well formed, a track string that names no track fails the whole record |
| Videos.UnknownFocusDropped | WWDCSessionsImporter/WWDCSessionsImporter/main.swift:43-45 | appending an unknown platform string to a string-array focus leaves the decode result unchanged |
| Videos.FocusExample | WWDCSessionsImporter/WWDCSessionsImporter/main.swift:43-45 | focus `["iOS", "Linux", "macOS"]` decodes to `[iOS, macOS]` |
| Importer.DecodeAll | WWDCSessionsImporter/WWDCSessionsImporter/main.swift:114-118 | succeeds exactly when every record decodes, then gives one video per record in the same order; otherwise it rejects the batch at the first record that fails, with that record's error |
| Importer.ImportSessions | WWDCSessionsImporter/WWDCSessionsImporter/main.swift:106-120 | loads exactly when `"sessions"` holds an array of objects that all decode, then gives one video per element, in order; the failure is missing-sessions exactly when the key is absent, not-records exactly when its value is not an array of objects, and otherwise names the first record that fails, with its cause |
| Importer.WellFormedCatalogLoads | WWDCSessionsImporter/WWDCSessionsImporter/main.swift:106-120 | an array of well-formed records always loads, with as many videos as records |
| Selection.Less | WWDCSessionsImporter/WWDCSessionsImporter/main.swift:243 | the comparison `l.id > r.id` as a lexicographic order on characters; its contract is carried by `LessIrreflexive`, `LessTransitive` and `LessTotal` (a strict total order) |
| Selection.LessTransitive | WWDCSessionsImporter/WWDCSessionsImporter/main.swift:243 | the string order used by the sort comparator is transitive |
| Selection.LessTotal | WWDCSessionsImporter/WWDCSessionsImporter/main.swift:243 | any two distinct ids are ordered one way or the other |
| Selection.LessIrreflexive | WWDCSessionsImporter/WWDCSessionsImporter/main.swift:243 | no id sorts strictly before itself |
| Selection.Insert | WWDCSessionsImporter/WWDCSessionsImporter/main.swift:242-244 | inserting into a descending-sorted list keeps it sorted and adds exactly the one video |
| Selection.SortByIdDescending | WWDCSessionsImporter/WWDCSessionsImporter/main.swift:242-244 | the sorted catalog is a permutation of the input with non-increasing ids |
| Selection.SortOfSortedIsIdentity | WWDCSessionsImporter/WWDCSessionsImporter/main.swift:242-244 | sorting an already sorted catalog with distinct ids returns it unchanged |
| Selection.SortExample | WWDCSessionsImporter/WWDCSessionsImporter/main.swift:242-244 | videos with ids `b, a, c` sort to ids `c, b, a` |
| Selection.FilterYear | WWDCSessionsImporter/WWDCSessionsImporter/main.swift:251-253 | keeps only videos of the given year, each exactly as often as in the input; `FilterYearAppend` adds that they keep their input order |
| Selection.FilterYearAppend | WWDCSessionsImporter/WWDCSessionsImporter/main.swift:250-253 | the loop walks the videos in order: filtering a concatenation is the concatenation of the filtered parts, which together with the multiset contract fixes the result |
| Selection.FilterYearKeepsOrder | WWDCSessionsImporter/WWDCSessionsImporter/main.swift:250-253 | skipping non-2016 videos keeps the descending id order |
| Selection.Select | WWDCSessionsImporter/WWDCSessionsImporter/main.swift:242-253 | the videos that get an issue, in request order: the sorted catalog with non-2016 videos skipped; its contract is carried by `SelectSpec` |
| Selection.SelectSpec | WWDCSessionsImporter/WWDCSessionsImporter/main.swift:242-253 | the published videos are exactly the catalog's 2016 videos, with multiplicities, in non-increasing id order |
| Issues.Title | WWDCSessionsImporter/WWDCSessionsImporter/main.swift:194 | the title `"id: title"` splits back at its first `": "` into the video's id and session title whenever the id has no colon |
| Issues.TitleRoundTrip | WWDCSessionsImporter/WWDCSessionsImporter/main.swift:194 | joining a colon-free id and a title with `": "` and splitting at the first `": "` gives both back |
| Issues.FindSeparator | WWDCSessionsImporter/WWDCSessionsImporter/main.swift:194 | finds the first `": "` at or after a position, and finds none exactly when there is none |
| Issues.MakeLabels | WWDCSessionsImporter/WWDCSessionsImporter/main.swift:207-214 | there are `1 + |focus|` labels; the first is the track's raw value and the rest are the focus raw values in order |
| Issues.LabelsRoundTrip | WWDCSessionsImporter/WWDCSessionsImporter/main.swift:207-214 | the track and the focus list can be read back from the labels |
| Issues.Terminator | WWDCSessionsImporter/WWDCSessionsImporter/main.swift:223-227 | the `labels.last != label` test: `"."` after any label equal in value to the last one, `", "` otherwise; `KeywordsPositionalIff` states when this agrees with a test by position |
| Issues.KeywordsAfter | WWDCSessionsImporter/WWDCSessionsImporter/main.swift:220-228 | after `k` rounds of the loop the line still starts with `"Keywords: "` and has grown by at least one character per label; `KeywordsPositionalIff` gives its exact form when the last label is unique, otherwise `KeywordsLengthGap` and `KeywordsEnding` give its length and ending |
| Issues.Keywords | WWDCSessionsImporter/WWDCSessionsImporter/main.swift:219-228 | the whole keyword line starts with `"Keywords: "` and is longer than it by at least the number of labels; `KeywordsOfUniqueLast` gives its exact form when the last label is unique, otherwise `KeywordsEnding` and `KeywordsLengthGap` give its ending and length |
| Issues.KeywordsPositionalIff | WWDCSessionsImporter/WWDCSessionsImporter/main.swift:220-228 | the value-equality terminator gives the same line as a position-based one exactly when no earlier label equals the last label |
| Issues.KeywordsLengthGap | WWDCSessionsImporter/WWDCSessionsImporter/main.swift:220-228 | each earlier copy of the last label makes the line one character shorter than the positional line (`"."` in place of `", "`) |
| Issues.PositionalIsCommaList | WWDCSessionsImporter/WWDCSessionsImporter/main.swift:220-228 | the position-based line is `"Keywords: "`, then the labels joined by `", "`, then `"."` |
| Issues.KeywordsOfUniqueLast | WWDCSessionsImporter/WWDCSessionsImporter/main.swift:216-231 | with a unique last label the line is `"Keywords: "`, the comma-separated labels and a final `"."`, so there are `|labels| - 1` separators |
| Issues.KeywordsEnding | WWDCSessionsImporter/WWDCSessionsImporter/main.swift:220-228 | a non-empty label list always ends the line with the last label and `"."`; an empty one leaves the bare `"Keywords: "` |
| Issues.Description | WWDCSessionsImporter/WWDCSessionsImporter/main.swift:216-231 | `makeDescription`: permalink and id, a blank line, the description, a blank line, the keyword line; its contract is carried by `IssueBodyShape` and `IssueOfDistinctFocus` |
| Issues.MakeIssue | WWDCSessionsImporter/WWDCSessionsImporter/main.swift:192-197 | `makeBody` before serialisation: title, description and labels; its contract is carried by `Title`, `MakeLabels`, `IssueBodyShape` and `IssueOfDistinctFocus` |
| Issues.IssueBodyShape | WWDCSessionsImporter/WWDCSessionsImporter/main.swift:216-231 | every issue body starts with the permalink and id followed by a blank line, and ends with the last label and `"."` |
| Issues.LabelsLastUniqueIff | WWDCSessionsImporter/WWDCSessionsImporter/main.swift:207-223 | a video's labels have a unique last label exactly when the focus list does not repeat its last platform |
| Issues.IssueOfDistinctFocus | WWDCSessionsImporter/WWDCSessionsImporter/main.swift:192-231 | for a focus list that does not repeat its last platform, the title is `id: title` and the body is the permalink + id, a blank line, the description, a blank line and the comma-separated keyword list closed by `"."` |
| Issues.KeywordsExampleDistinct | WWDCSessionsImporter/WWDCSessionsImporter/main.swift:207-231 | a Design video `402` with focus `[iOS, macOS]` gets labels `[Design, iOS, macOS]` and a description ending `Keywords: Design, iOS, macOS.` |
| Issues.KeywordsExampleTrackOnly | WWDCSessionsImporter/WWDCSessionsImporter/main.swift:207-231 | a Featured video `101` with no focus gets labels `[Featured]` and a description ending `Keywords: Featured.` |
| Issues.KeywordsExampleRepeatedFocus | WWDCSessionsImporter/WWDCSessionsImporter/main.swift:216-231 | focus `[iOS, iOS]` with track Design gives `Keywords: Design, iOS.iOS.` |
| Pipeline.PlanIssues | WWDCSessionsImporter/WWDCSessionsImporter/main.swift:236-264 | a load failure creates no issue and keeps its error; otherwise there is one issue per selected video, in request order |
| Pipeline.PlanIssuesSpec | WWDCSessionsImporter/WWDCSessionsImporter/main.swift:242-255 | every issue belongs to a 2016 video of the catalog, issues come in non-increasing id order, each 2016 video is covered as often as it occurs, and each issue's first label is its track |

## Left out

- `JSONLoader`: finding `sessions.json` in the bundle, reading it, JSON deserialisation, the root-is-a-dictionary check and `exit(1)`. These are file I/O and a foreign library. The model starts from the parsed root object.
- `makeURL` and the access token: URL building relies on `NSURLComponents` query encoding, which is a foreign library.
- `makeURLRequest` and the JSON serialisation in `makeBody`: the model builds only the structured title, body and labels. The HTTP method and serialised bytes are not modelled, and neither is the `fatalError` on a serialisation error.
- `NSURLSession` requests, the dispatch group's enter, leave and wait, and the 201 status check: network I/O and concurrency.
- `print` calls: console output. `fatalError` and the `nil` returns become failure results (`LoadError`, `ParseError`).
- Parser error messages: the source formats strings. The model keeps the same information (the key and the offending value) as `ParseError` cases.
- `year`: only an integer JSON value is accepted. Swift's `NSNumber` bridging of booleans and floating-point numbers to `Int` is not modelled; those values are `Other`.
- Selection.Less: Swift 2 orders strings that are not pure ASCII by Unicode collation (for example `"é"` before `"f"`). The model compares characters by code point, so the sort order can differ for non-ASCII ids.
- Issues.KeywordsAfter: when an earlier label equals the last one, the exact partial line is stated only by the definition and by `KeywordsExampleRepeatedFocus`; the lemmas state its heading, length and ending.
- Issues.Keywords: when an earlier label equals the last one, the exact line is stated only by the definition and by `KeywordsExampleRepeatedFocus`; the lemmas state its heading, length and ending.
- Selection.SortByIdDescending: states order and permutation only. Swift's `sort` makes no stability promise, so the relative order of equal ids is unspecified.

=== FILE: document.dfy ===
/** The untyped document produced by the JSON deserialiser, and the checked
    casts (`as? String`, `as? Int`, `as? [String: AnyObject]`, `as? [T]`)
    the importer applies to its values. */
module Document {
  import opened Wrappers

  /** A loosely-typed document value. `Other` stands for every value the
      importer never casts successfully (booleans, null, floating point). */
  datatype Value =
    | Str(s: string)
    | Int(i: int)
    | Arr(items: seq<Value>)
    | Obj(fields: map<string, Value>)
    | Other

  /** A decoded JSON object: string keys to untyped values. */
  type Object = map<string, Value>

  function AsString(v: Value): (r: Option<string>)
    ensures r.Some? <==> v.Str?
    ensures r.Some? ==> r.value == v.s
  {
    if v.Str? then Some(v.s) else None
  }

  function AsInt(v: Value): (r: Option<int>)
    ensures r.Some? <==> v.Int?
    ensures r.Some? ==> r.value == v.i
  {
    if v.Int? then Some(v.i) else None
  }

  function AsObject(v: Value): (r: Option<Object>)
    ensures r.Some? <==> v.Obj?
    ensures r.Some? ==> r.value == v.fields
  {
    if v.Obj? then Some(v.fields) else None
  }

  /** Casts every element of `items`; fails as soon as one element does not cast. */
  function CastAll<T>(cast: Value -> Option<T>, items: seq<Value>): (r: Option<seq<T>>)
    ensures r.Some? <==> forall i :: 0 <= i < |items| ==> cast(items[i]).Some?
    ensures r.Some? ==> |r.value| == |items|
    ensures r.Some? ==> forall i :: 0 <= i < |items| ==> cast(items[i]) == Some(r.value[i])
  {
    if |items| == 0 then Some([])
    else
      var head :- cast(items[0]);
      var tail :- CastAll(cast, items[1..]);
      assert forall i :: 1 <= i < |items| ==> items[i] == items[1..][i - 1];
      Some([head] + tail)
  }

  /** The array cast `as? [T]`: the value must be an array and every element
      must cast to `T`; there is no partial success. */
  function ArrayOf<T>(cast: Value -> Option<T>, v: Value): (r: Option<seq<T>>)
    ensures r.Some? <==> v.Arr? && forall i :: 0 <= i < |v.items| ==> cast(v.items[i]).Some?
    ensures r.Some? ==> |r.value| == |v.items|
    ensures r.Some? ==> forall i :: 0 <= i < |v.items| ==> cast(v.items[i]) == Some(r.value[i])
  {
    if v.Arr? then CastAll(cast, v.items) else None
  }
}

=== FILE: importer.dfy ===
/** Catalog assembly: the part of `SessionsImporter.importSessions` that
    runs after the JSON document has been parsed. */
module Importer {
  import opened Wrappers
  import opened Document
  import opened Parser
  import opened Videos

  /** Why no catalog was produced. The first two are the importer's `nil`
      results; `RecordRejected` is the decoder's `fatalError`, which ends
      the whole run on the first record that does not decode. */
  datatype LoadError =
    | SessionsMissing
    | SessionsNotRecords(found: Value)
    | RecordRejected(index: nat, cause: ParseError)

  /** Decodes every record in order; the first failure rejects the whole batch. */
  function DecodeAll(records: seq<Object>): (r: Result<seq<Video>, LoadError>)
    ensures r.Success? <==> forall i :: 0 <= i < |records| ==> Decode(records[i]).Success?
    ensures r.Success? ==> |r.value| == |records|
    ensures r.Success? ==> forall i :: 0 <= i < |records| ==> Decode(records[i]) == Success(r.value[i])
    ensures r.Failure? ==> && r.error.RecordRejected?
                           && r.error.index < |records|
                           && Decode(records[r.error.index]) == Failure(r.error.cause)
                           && forall j :: 0 <= j < r.error.index ==> Decode(records[j]).Success?
  {
    if |records| == 0 then Success([])
    else
      assert forall i :: 1 <= i < |records| ==> records[1..][i - 1] == records[i];
      match Decode(records[0])
      case Failure(e) => Failure(RecordRejected(0, e))
      case Success(v) =>
        match DecodeAll(records[1..])
        case Failure(e) => Failure(RecordRejected(e.index + 1, e.cause))
        case Success(vs) => Success([v] + vs)
  }

  /** `importSessions` from the parsed root object on: the `"sessions"` key
      must hold an array of objects, and every object must decode. */
  function ImportSessions(root: Object): (r: Result<seq<Video>, LoadError>)
    ensures "sessions" !in root ==> r == Failure(SessionsMissing)
    ensures "sessions" in root && ArrayOf(AsObject, root["sessions"]).None?
            ==> r == Failure(SessionsNotRecords(root["sessions"]))
    ensures r.Success? ==> "sessions" in root && root["sessions"].Arr?
    ensures r.Success? ==> |r.value| == |root["sessions"].items|
    ensures r.Success? ==> forall i :: 0 <= i < |r.value| ==>
              root["sessions"].items[i].Obj? && Decode(root["sessions"].items[i].fields) == Success(r.value[i])
    ensures r.Success? <==> && "sessions" in root && ArrayOf(AsObject, root["sessions"]).Some?
                            && forall i :: 0 <= i < |root["sessions"].items| ==>
                                 Decode(root["sessions"].items[i].fields).Success?
    ensures r.Failure? ==> (r.error.SessionsMissing? <==> "sessions" !in root)
    ensures r.Failure? ==> (r.error.SessionsNotRecords? <==>
              "sessions" in root && ArrayOf(AsObject, root["sessions"]).None?)
    ensures r.Failure? && r.error.RecordRejected? ==>
              && "sessions" in root && ArrayOf(AsObject, root["sessions"]).Some?
              && r.error.index < |root["sessions"].items|
              && Decode(root["sessions"].items[r.error.index].fields) == Failure(r.error.cause)
              && forall j :: 0 <= j < r.error.index ==> Decode(root["sessions"].items[j].fields).Success?
  {
    if "sessions" !in root then Failure(SessionsMissing)
    else
      match ArrayOf(AsObject, root["sessions"])
      case None => Failure(SessionsNotRecords(root["sessions"]))
      case Some(records) => DecodeAll(records)
  }

  /** A catalog with a well-formed `"sessions"` array of well-formed records
      always loads, one video per record. */
  lemma WellFormedCatalogLoads(root: Object)
    requires "sessions" in root && root["sessions"].Arr?
    requires forall i :: 0 <= i < |root["sessions"].items| ==>
               root["sessions"].items[i].Obj? && WellFormedRecord(root["sessions"].items[i].fields)
    ensures ImportSessions(root).Success?
    ensures |ImportSessions(root).value| == |root["sessions"].items|
  {
    var items := root["sessions"].items;
    forall i | 0 <= i < |items|
      ensures Decode(ArrayOf(AsObject, root["sessions"]).value[i]).Success?
    {
      DecodeSucceedsIffWellFormed(items[i].fields);
    }
  }
}

=== FILE: issues.dfy ===
/** The issue derived from one video (`CreateGitHubIssueURLRequestCreator`):
    its title, its label list and its description text. */
module Issues {
  import opened Wrappers
  import opened Labels
  import opened Parser
  import opened Videos
  import opened Sequences

  /** Permalink of a session page; the video id is appended to it. */
  const PermalinkPrefix: string := "https://developer.apple.com/videos/play/wwdc2016/"

  /** Opens the keyword line at the end of the description. */
  const KeywordsHeading: string := "Keywords: "

  /** The structured body of the issue-creation request. */
  datatype Issue = Issue(title: string, body: string, labels: seq<string>)

  // ---------------------------------------------------------------- title

  /** `"\(id): \(title)"`: it encodes both parts, and splitting it at its
      first `": "` gives them back when the id has no colon. */
  function Title(v: Video): (r: string)
    ensures ':' !in v.id ==> SplitTitle(r) == Some((v.id, v.title))
  {
    TitleRoundTrip(v.id, v.title); v.id + ": " + v.title
  }

  /** A `": "` starts at position `i` of `s`. */
  predicate SeparatorAt(s: string, i: nat) {
    i + 2 <= |s| && s[i] == ':' && s[i + 1] == ' '
  }

  /** The position of the first `": "` in `s` at or after `from`, if any. */
  function FindSeparator(s: string, from: nat): (r: Option<nat>)
    requires from <= |s|
    ensures r.Some? ==> from <= r.value && SeparatorAt(s, r.value)
    ensures r.Some? ==> forall i :: from <= i < r.value ==> !SeparatorAt(s, i)
    ensures r.None? <==> forall i :: from <= i ==> !SeparatorAt(s, i)
    decreases |s| - from
  {
    if from + 2 > |s| then None
    else if s[from] == ':' && s[from + 1] == ' ' then assert SeparatorAt(s, from); Some(from)
    else FindSeparator(s, from + 1)
  }

  /** Splits an issue title at its first `": "` into id and session title. */
  function SplitTitle(s: string): Option<(string, string)> {
    match FindSeparator(s, 0)
    case None => None
    case Some(i) => Some((s[..i], s[i + 2..]))
  }

  /** Joining an id and a title with `": "` and splitting the result gives
      both back when the id has no colon. */
  lemma TitleRoundTrip(id: string, title: string)
    ensures ':' !in id ==> SplitTitle(id + ": " + title) == Some((id, title))
  {
    if ':' !in id {
      var s := id + ": " + title;
      assert SeparatorAt(s, |id|);
      forall i | 0 <= i < |id| ensures !SeparatorAt(s, i) {
        assert s[i] == id[i];
      }
      assert s[..|id|] == id;
      assert s[|id| + 2..] == title;
    }
  }

  // --------------------------------------------------------------- labels

  /** `makeLabels`: the track's label, then the focus platforms' labels in order. */
  function MakeLabels(v: Video): (r: seq<string>)
    ensures |r| == 1 + |v.focus|
    ensures r[0] == TrackRaw(v.track)
    ensures forall i :: 0 <= i < |v.focus| ==> r[i + 1] == PlatformRaw(v.focus[i])
  {
    [TrackRaw(v.track)] + seq(|v.focus|, i requires 0 <= i < |v.focus| => PlatformRaw(v.focus[i]))
  }

  /** Labels lose nothing: the track and focus can be read back from them. */
  lemma LabelsRoundTrip(v: Video)
    ensures TrackFromRaw(MakeLabels(v)[0]) == Some(v.track)
    ensures FilterMap(PlatformFromRaw, MakeLabels(v)[1..]) == v.focus
  {
    TrackRawValueRoundTrip(v.track);
    PlatformLabelsRoundTrip(v.focus, MakeLabels(v)[1..]);
  }

  lemma {:induction false} PlatformLabelsRoundTrip(ps: seq<Platform>, raws: seq<string>)
    requires |raws| == |ps|
    requires forall i :: 0 <= i < |ps| ==> raws[i] == PlatformRaw(ps[i])
    ensures FilterMap(PlatformFromRaw, raws) == ps
  {
    if |ps| > 0 {
      PlatformRawValueRoundTrip(ps[0]);
      PlatformLabelsRoundTrip(ps[1..], raws[1..]);
      assert ps == [ps[0]] + ps[1..];
    }
  }

  // ------------------------------------------------------------- keywords

  /** The source's terminator for the label at position `i`: `"."` when the
      label is EQUAL to the last label, `", "` otherwise. */
  function Terminator(labels: seq<string>, i: nat): string
    requires i < |labels|
  {
    if labels[i] == labels[|labels| - 1] then "." else ", "
  }

  /** The keyword line after the loop of `makeDescription` has handled the
      first `k` labels. */
  function KeywordsAfter(labels: seq<string>, k: nat): (r: string)
    requires k <= |labels|
    ensures |KeywordsHeading| + k <= |r| && r[..|KeywordsHeading|] == KeywordsHeading
  {
    if k == 0 then KeywordsHeading
    else KeywordsAfter(labels, k - 1) + labels[k - 1] + Terminator(labels, k - 1)
  }

  /** The complete keyword line, as the source builds it. */
  function Keywords(labels: seq<string>): (r: string)
    ensures |KeywordsHeading| + |labels| <= |r| && r[..|KeywordsHeading|] == KeywordsHeading
  {
    KeywordsAfter(labels, |labels|)
  }

  /** Reference definition: the terminator chosen by position, `"."` only
      after the label that is last in the list. */
  function PositionalTerminator(labels: seq<string>, i: nat): string
    requires i < |labels|
  {
    if i == |labels| - 1 then "." else ", "
  }

  function PositionalKeywordsAfter(labels: seq<string>, k: nat): string
    requires k <= |labels|
  {
    if k == 0 then KeywordsHeading
    else PositionalKeywordsAfter(labels, k - 1) + labels[k - 1] + PositionalTerminator(labels, k - 1)
  }

  /** Labels joined with `sep` between neighbours. */
  function Join(labels: seq<string>, sep: string): string
    requires |labels| > 0
  {
    if |labels| == 1 then labels[0]
    else Join(labels[..|labels| - 1], sep) + sep + labels[|labels| - 1]
  }

  /** No label before the last one equals it. */
  predicate LastIsUnique(labels: seq<string>) {
    forall i :: 0 <= i < |labels| - 1 ==> labels[i] != labels[|labels| - 1]
  }

  /** How many labels among the first `k`, other than the last one itself,
      equal the last label. */
  function EarlyCopies(labels: seq<string>, k: nat): nat
    requires k <= |labels|
  {
    if k == 0 then 0
    else EarlyCopies(labels, k - 1) + (if k - 1 < |labels| - 1 && labels[k - 1] == labels[|labels| - 1] then 1 else 0)
  }

  /** The position-based line is the comma-separated list closed by a period. */
  lemma PositionalIsCommaList(labels: seq<string>)
    requires |labels| > 0
    ensures PositionalKeywordsAfter(labels, |labels|) == KeywordsHeading + Join(labels, ", ") + "."
  {
    var n := |labels|;
    if n > 1 {
      PositionalPrefix(labels, n - 1);
      var front, last := Join(labels[..n - 1], ", "), labels[n - 1];
      assert Join(labels, ", ") == front + ", " + last;
      AppendAssoc(KeywordsHeading + front, ", ", last);
      AppendAssoc(KeywordsHeading, front, ", ");
      AppendAssoc(KeywordsHeading, front + ", ", last);
    }
  }

  lemma {:induction false} PositionalPrefix(labels: seq<string>, k: nat)
    requires 0 < k < |labels|
    ensures PositionalKeywordsAfter(labels, k) == KeywordsHeading + Join(labels[..k], ", ") + ", "
  {
    if k > 1 {
      PositionalPrefix(labels, k - 1);
      assert labels[..k][..k - 1] == labels[..k - 1];
    }
  }

  /** Every early copy of the last label shortens the source's line by one
      character against the positional one (`"."` instead of `", "`). */
  lemma {:induction false} KeywordsLengthGap(labels: seq<string>, k: nat)
    requires k <= |labels|
    ensures |PositionalKeywordsAfter(labels, k)| == |KeywordsAfter(labels, k)| + EarlyCopies(labels, k)
  {
    if k > 0 {
      KeywordsLengthGap(labels, k - 1);
    }
  }

  lemma {:induction false} NoEarlyCopiesAgree(labels: seq<string>, k: nat)
    requires k <= |labels|
    requires LastIsUnique(labels)
    ensures KeywordsAfter(labels, k) == PositionalKeywordsAfter(labels, k)
  {
    if k > 0 {
      NoEarlyCopiesAgree(labels, k - 1);
    }
  }

  lemma {:induction false} EarlyCopyCounted(labels: seq<string>, k: nat, i: nat)
    requires i < k <= |labels| && i < |labels| - 1
    requires labels[i] == labels[|labels| - 1]
    ensures EarlyCopies(labels, k) > 0
  {
    if k - 1 != i {
      EarlyCopyCounted(labels, k - 1, i);
    }
  }

  /** The source's value-equality terminator agrees with the position-based
      one exactly when no earlier label repeats the last label. */
  lemma KeywordsPositionalIff(labels: seq<string>)
    ensures Keywords(labels) == PositionalKeywordsAfter(labels, |labels|) <==> LastIsUnique(labels)
  {
    if LastIsUnique(labels) {
      NoEarlyCopiesAgree(labels, |labels|);
    } else {
      var i :| 0 <= i < |labels| - 1 && labels[i] == labels[|labels| - 1];
      EarlyCopyCounted(labels, |labels|, i);
      KeywordsLengthGap(labels, |labels|);
    }
  }

  /** With a unique last label the keyword line is the comma-separated label
      list closed by a period: `|labels| - 1` separators, one terminator. */
  lemma KeywordsOfUniqueLast(labels: seq<string>)
    requires |labels| > 0 && LastIsUnique(labels)
    ensures Keywords(labels) == KeywordsHeading + Join(labels, ", ") + "."
  {
    NoEarlyCopiesAgree(labels, |labels|);
    PositionalIsCommaList(labels);
  }

  /** Whatever the labels, the line always ends with the last label and a
      period; with no labels it is the bare heading. */
  lemma KeywordsEnding(labels: seq<string>)
    ensures |labels| == 0 ==> Keywords(labels) == KeywordsHeading
    ensures |labels| > 0 ==> var tail := labels[|labels| - 1] + ".";
                             |tail| <= |Keywords(labels)|
                             && Keywords(labels)[|Keywords(labels)| - |tail|..] == tail
  {
    if |labels| > 0 {
      var n := |labels|;
      assert Keywords(labels) == KeywordsAfter(labels, n - 1) + (labels[n - 1] + ".");
    }
  }

  // ---------------------------------------------------------- description

  /** `makeDescription`: permalink, description and keyword line, separated by blank lines. */
  function Description(v: Video): string {
    PermalinkPrefix + v.id + "\n\n" + v.description + "\n\n" + Keywords(MakeLabels(v))
  }

  /** `makeBody` before serialisation. */
  function MakeIssue(v: Video): Issue {
    Issue(Title(v), Description(v), MakeLabels(v))
  }

  /** Every issue body opens with the session's permalink and closes its
      keyword line with the last label and a period: a video always has at
      least its track label. */
  lemma IssueBodyShape(v: Video)
    ensures var body := MakeIssue(v).body;
            var labels := MakeLabels(v);
            var head := PermalinkPrefix + v.id + "\n\n";
            var tail := labels[|labels| - 1] + ".";
            && |head| + |tail| <= |body|
            && body[..|head|] == head
            && body[|body| - |tail|..] == tail
  {
    var labels := MakeLabels(v);
    var head := PermalinkPrefix + v.id + "\n\n";
    var front := head + v.description + "\n\n";
    var kw := Keywords(labels);
    var tail := labels[|labels| - 1] + ".";
    KeywordsEnding(labels);
    assert MakeIssue(v).body == front + kw;
    PrefixThenSuffix(head, v.description, "\n\n", kw, tail);
  }

  /** In `head + mid + mid' + rest`, `head` is a prefix and a suffix `t` of
      `rest` is a suffix of the whole. */
  lemma PrefixThenSuffix(head: string, mid: string, mid': string, rest: string, t: string)
    requires |t| <= |rest| && rest[|rest| - |t|..] == t
    ensures var whole := head + mid + mid' + rest;
            && |head| + |t| <= |whole|
            && whole[..|head|] == head
            && whole[|whole| - |t|..] == t
  {
    var whole := head + mid + mid' + rest;
    assert whole[..|head|] == head;
    assert whole[|whole| - |t|..] == rest[|rest| - |t|..];
  }

  /** A video's labels have a unique last label exactly when its focus list
      does not repeat its last platform: the track label never equals a
      platform label. */
  lemma LabelsLastUniqueIff(v: Video)
    ensures LastIsUnique(MakeLabels(v)) <==>
            (|v.focus| == 0 || forall i :: 0 <= i < |v.focus| - 1 ==> v.focus[i] != v.focus[|v.focus| - 1])
  {
    var labels := MakeLabels(v);
    var n := |v.focus|;
    if n > 0 {
      var last := v.focus[n - 1];
      TrackAndPlatformLabelsDisjoint(v.track, last);
      forall i | 0 <= i < n - 1 ensures (v.focus[i] == last <==> labels[i + 1] == labels[n]) {
        PlatformRawValueRoundTrip(v.focus[i]);
        PlatformRawValueRoundTrip(last);
      }
      if !LastIsUnique(labels) {
        var j :| 0 <= j < |labels| - 1 && labels[j] == labels[|labels| - 1];
        assert j > 0;
        assert v.focus[j - 1] == last;
      }
    }
  }

  /** The issue of a video whose focus list does not repeat its last
      platform: title `id: title`, the labels, and a description ending in
      the comma-separated keyword list closed by a period. */
  lemma IssueOfDistinctFocus(v: Video)
    requires |v.focus| == 0 || forall i :: 0 <= i < |v.focus| - 1 ==> v.focus[i] != v.focus[|v.focus| - 1]
    ensures var issue := MakeIssue(v);
            && issue.title == v.id + ": " + v.title
            && issue.labels == MakeLabels(v)
            && issue.body == PermalinkPrefix + v.id + "\n\n" + v.description + "\n\n"
                             + KeywordsHeading + Join(MakeLabels(v), ", ") + "."
  {
    LabelsLastUniqueIff(v);
    KeywordsOfUniqueLast(MakeLabels(v));
  }

  /** A Design session for iOS and macOS: the labels are the track and both
      platforms, and the description closes with a plain comma list. */
  lemma KeywordsExampleDistinct()
    ensures MakeLabels(Video("402", "t", "d", [iOS, macOS], Design, 2016)) == ["Design", "iOS", "macOS"]
    ensures Description(Video("402", "t", "d", [iOS, macOS], Design, 2016))
            == PermalinkPrefix + "402" + "\n\n" + "d" + "\n\n" + "Keywords: Design, iOS, macOS."
  {
    var v := Video("402", "t", "d", [iOS, macOS], Design, 2016);
    assert MakeLabels(v) == ["Design", "iOS", "macOS"];
    KeywordsOfDesignIosMacos();
    DescriptionOfKeywords(v, "Keywords: Design, iOS, macOS.");
  }

  lemma KeywordsOfDesignIosMacos()
    ensures Keywords(["Design", "iOS", "macOS"]) == "Keywords: Design, iOS, macOS."
  {
    var labels := ["Design", "iOS", "macOS"];
    assert labels[0] != labels[2] && labels[1] != labels[2];
    assert KeywordsAfter(labels, 1) == "Keywords: " + "Design" + ", ";
    assert KeywordsAfter(labels, 2) == "Keywords: Design, " + "iOS" + ", ";
    assert KeywordsAfter(labels, 3) == "Keywords: Design, iOS, " + "macOS" + ".";
  }

  /** The description once the keyword line is known. */
  lemma DescriptionOfKeywords(v: Video, kw: string)
    requires Keywords(MakeLabels(v)) == kw
    ensures Description(v) == PermalinkPrefix + v.id + "\n\n" + v.description + "\n\n" + kw
  {
  }

  /** A Featured session with an empty focus list: the track is the only
      label, closed by a period. */
  lemma KeywordsExampleTrackOnly()
    ensures MakeLabels(Video("101", "t", "d", [], Featured, 2016)) == ["Featured"]
    ensures Description(Video("101", "t", "d", [], Featured, 2016))
            == PermalinkPrefix + "101" + "\n\n" + "d" + "\n\n" + "Keywords: Featured."
  {
    var v := Video("101", "t", "d", [], Featured, 2016);
    var labels := MakeLabels(v);
    assert labels == ["Featured"];
    assert KeywordsAfter(labels, 1) == "Keywords: " + "Featured" + ".";
    DescriptionOfKeywords(v, "Keywords: Featured.");
  }

  /** The value-equality terminator on a repeated platform: both copies of
      `iOS` equal the last label, so both are followed by a period. */
  lemma KeywordsExampleRepeatedFocus()
    ensures Keywords(MakeLabels(Video("402", "t", "d", [iOS, iOS], Design, 2016))) == "Keywords: Design, iOS.iOS."
    ensures !LastIsUnique(MakeLabels(Video("402", "t", "d", [iOS, iOS], Design, 2016)))
  {
    var labels := MakeLabels(Video("402", "t", "d", [iOS, iOS], Design, 2016));
    assert labels == ["Design", "iOS", "iOS"];
    assert labels[0] != labels[2] && labels[1] == labels[2];
    assert KeywordsAfter(labels, 1) == "Keywords: " + "Design" + ", ";
    assert KeywordsAfter(labels, 2) == "Keywords: Design, " + "iOS" + ".";
    assert KeywordsAfter(labels, 3) == "Keywords: Design, iOS." + "iOS" + ".";
  }
}

=== FILE: labels.dfy ===
/** The two raw-value enumerations of the importer: `Platform` (a session's
    focus) and `Track` (its category). Each case's raw value is the label
    string used in the document and on the issue tracker. */
module Labels {
  import opened Wrappers

  datatype Platform = iOS | macOS | tvOS | watchOS

  datatype Track =
    | AppFrameworks
    | DeveloperTools
    | Distribution
    | SystemFrameworks
    | Media
    | Design
    | Featured
    | GraphicsAndGames

  function PlatformRaw(p: Platform): string {
    match p
    case iOS => "iOS"
    case macOS => "macOS"
    case tvOS => "tvOS"
    case watchOS => "watchOS"
  }

  function TrackRaw(t: Track): string {
    match t
    case AppFrameworks => "App Frameworks"
    case DeveloperTools => "Developer Tools"
    case Distribution => "Distribution"
    case SystemFrameworks => "System Frameworks"
    case Media => "Media"
    case Design => "Design"
    case Featured => "Featured"
    case GraphicsAndGames => "Graphics and Games"
  }

  /** `Platform(rawValue:)`: the case whose raw value is `s`, and nothing for
      any string outside the four labels. */
  function PlatformFromRaw(s: string): (r: Option<Platform>)
    ensures forall p: Platform :: r == Some(p) <==> PlatformRaw(p) == s
  {
    if s == "iOS" then Some(iOS)
    else if s == "macOS" then Some(macOS)
    else if s == "tvOS" then Some(tvOS)
    else if s == "watchOS" then Some(watchOS)
    else None
  }

  /** `Track(rawValue:)`: the case whose raw value is `s`, and nothing for
      any string outside the eight labels. */
  function TrackFromRaw(s: string): (r: Option<Track>)
    ensures forall t: Track :: r == Some(t) <==> TrackRaw(t) == s
  {
    if s == "App Frameworks" then Some(AppFrameworks)
    else if s == "Developer Tools" then Some(DeveloperTools)
    else if s == "Distribution" then Some(Distribution)
    else if s == "System Frameworks" then Some(SystemFrameworks)
    else if s == "Media" then Some(Media)
    else if s == "Design" then Some(Design)
    else if s == "Featured" then Some(Featured)
    else if s == "Graphics and Games" then Some(GraphicsAndGames)
    else None
  }

  /** A platform's raw value identifies it: decoding it gives the platform back. */
  lemma PlatformRawValueRoundTrip(p: Platform)
    ensures PlatformFromRaw(PlatformRaw(p)) == Some(p)
  {
  }

  /** A track's raw value identifies it: decoding it gives the track back. */
  lemma TrackRawValueRoundTrip(t: Track)
    ensures TrackFromRaw(TrackRaw(t)) == Some(t)
  {
  }

  /** No track label is also a platform label, so on an issue the track
      label can never be confused with a focus label. */
  lemma TrackAndPlatformLabelsDisjoint(t: Track, p: Platform)
    ensures TrackRaw(t) != PlatformRaw(p)
    ensures PlatformFromRaw(TrackRaw(t)) == None
    ensures TrackFromRaw(PlatformRaw(p)) == None
  {
  }
}

=== FILE: parser.dfy ===
/** The field extractor (`Parser`): typed access to one key of an untyped
    object, with an optional transformation of the value found there. */
module Parser {
  import opened Wrappers
  import opened Document

  /** Why a field could not be extracted. Every case names the key. */
  datatype ParseError =
    | MissingKey(key: string)
    | WrongType(key: string, found: Value)
    | NotTransformed(key: string, found: Value)

  /** `fetch(key)`: the value stored under `key`, cast to `T` by `cast`. */
  function Fetch<T>(doc: Object, key: string, cast: Value -> Option<T>): (r: Result<T, ParseError>)
    ensures r == Failure(MissingKey(key)) <==> key !in doc
    ensures r.Success? <==> key in doc && cast(doc[key]).Some?
    ensures r.Success? ==> cast(doc[key]) == Some(r.value)
    ensures key in doc && r.Failure? ==> r.error == WrongType(key, doc[key])
  {
    if key !in doc then Failure(MissingKey(key))
    else
      match cast(doc[key])
      case None => Failure(WrongType(key, doc[key]))
      case Some(v) => Success(v)
  }

  /** `fetch(key, transformation:)`: a strict transform — a value the
      transformation rejects fails the field. */
  function FetchTransformed<T, U>(doc: Object, key: string, cast: Value -> Option<T>, transform: T -> Option<U>)
    : (r: Result<U, ParseError>)
    ensures r.Success? <==> key in doc && cast(doc[key]).Some? && transform(cast(doc[key]).value).Some?
    ensures r.Success? ==> transform(cast(doc[key]).value) == Some(r.value)
    ensures Fetch(doc, key, cast).Failure? ==> r == Failure(Fetch(doc, key, cast).error)
    ensures key in doc && cast(doc[key]).Some? && transform(cast(doc[key]).value).None?
            ==> r == Failure(NotTransformed(key, doc[key]))
  {
    var fetched :- Fetch(doc, key, cast);
    match transform(fetched)
    case None => Failure(NotTransformed(key, doc[key]))
    case Some(u) => Success(u)
  }

  /** `flatMap` with an optional-valued function: the defined results, in order. */
  function FilterMap<T, U>(f: T -> Option<U>, xs: seq<T>): (r: seq<U>)
    ensures |r| <= |xs|
    ensures (forall i :: 0 <= i < |xs| ==> f(xs[i]).Some?) ==> |r| == |xs|
    ensures (forall i :: 0 <= i < |xs| ==> f(xs[i]).None?) ==> r == []
  {
    if |xs| == 0 then []
    else
      var rest := FilterMap(f, xs[1..]);
      assert forall i :: 1 <= i < |xs| ==> xs[i] == xs[1..][i - 1];
      match f(xs[0])
      case None => rest
      case Some(y) => [y] + rest
  }

  /** The positions `lo..` of `xs` whose image under `f` is defined, in increasing order. */
  function KeptIndices<T, U>(f: T -> Option<U>, xs: seq<T>, lo: nat): seq<nat>
    requires lo <= |xs|
    decreases |xs| - lo
  {
    if lo == |xs| then []
    else if f(xs[lo]).Some? then [lo] + KeptIndices(f, xs, lo + 1)
    else KeptIndices(f, xs, lo + 1)
  }

  /** `idx` lists, strictly increasing, exactly the positions `lo..` of `xs`
      that `f` accepts, and `r[k]` is the image of the element at `idx[k]`. */
  ghost predicate Enumerates<T, U>(f: T -> Option<U>, xs: seq<T>, lo: nat, r: seq<U>, idx: seq<nat>)
  {
    && |idx| == |r|
    && (forall k :: 0 <= k < |idx| ==> lo <= idx[k] < |xs| && f(xs[idx[k]]) == Some(r[k]))
    && (forall k, l :: 0 <= k < l < |idx| ==> idx[k] < idx[l])
    && (forall i :: lo <= i < |xs| && f(xs[i]).Some? ==> i in idx)
  }

  /** `FilterMap` keeps exactly the defined images, in their original order. */
  lemma FilterMapEnumerates<T, U>(f: T -> Option<U>, xs: seq<T>)
    ensures Enumerates(f, xs, 0, FilterMap(f, xs), KeptIndices(f, xs, 0))
  {
    assert xs[0..] == xs;
    FilterMapEnumeratesFrom(f, xs, 0);
  }

  lemma {:induction false} FilterMapEnumeratesFrom<T, U>(f: T -> Option<U>, xs: seq<T>, lo: nat)
    requires lo <= |xs|
    ensures Enumerates(f, xs, lo, FilterMap(f, xs[lo..]), KeptIndices(f, xs, lo))
    decreases |xs| - lo
  {
    if lo < |xs| {
      FilterMapEnumeratesFrom(f, xs, lo + 1);
      assert xs[lo..][1..] == xs[lo + 1..];
      assert xs[lo..][0] == xs[lo];
      EnumeratesStep(f, xs, lo, FilterMap(f, xs[lo + 1..]), KeptIndices(f, xs, lo + 1));
    }
  }

  /** One step of the enumeration: position `lo` is prepended exactly when `f` accepts it. */
  lemma EnumeratesStep<T, U>(f: T -> Option<U>, xs: seq<T>, lo: nat, r: seq<U>, idx: seq<nat>)
    requires lo < |xs|
    requires Enumerates(f, xs, lo + 1, r, idx)
    ensures f(xs[lo]).None? ==> Enumerates(f, xs, lo, r, idx)
    ensures f(xs[lo]).Some? ==> Enumerates(f, xs, lo, [f(xs[lo]).value] + r, [lo] + idx)
  {
    if f(xs[lo]).Some? {
      var r', idx' := [f(xs[lo]).value] + r, [lo] + idx;
      assert forall k :: 1 <= k < |idx'| ==> idx'[k] == idx[k - 1] && r'[k] == r[k - 1];
    }
  }

  /** `FilterMap` distributes over concatenation. */
  lemma {:induction false} FilterMapAppend<T, U>(f: T -> Option<U>, xs: seq<T>, ys: seq<T>)
    ensures FilterMap(f, xs + ys) == FilterMap(f, xs) + FilterMap(f, ys)
  {
    if |xs| > 0 {
      assert (xs + ys)[1..] == xs[1..] + ys;
      FilterMapAppend(f, xs[1..], ys);
    } else {
      assert xs + ys == ys;
    }
  }

  /** `fetchArray(key, transformation:)`: a lenient transform — the value must
      be an array of `T`, but elements the transformation rejects are dropped. */
  function FetchArray<T, U>(doc: Object, key: string, cast: Value -> Option<T>, transform: T -> Option<U>)
    : (r: Result<seq<U>, ParseError>)
    ensures r.Success? <==> key in doc && ArrayOf(cast, doc[key]).Some?
    ensures r.Success? ==> |r.value| <= |doc[key].items|
    ensures r.Success? ==> r.value == FilterMap(transform, ArrayOf(cast, doc[key]).value)
    ensures r.Failure? ==> r.error == (if key in doc then WrongType(key, doc[key]) else MissingKey(key))
  {
    var fetched :- Fetch(doc, key, v => ArrayOf(cast, v));
    Success(FilterMap(transform, fetched))
  }

  /** A rejected element never fails the array: whatever the transformation,
      success depends only on the shape of the stored value. */
  lemma FetchArrayIgnoresTransform<T, U>(doc: Object, key: string, cast: Value -> Option<T>,
                                         f: T -> Option<U>, g: T -> Option<U>)
    ensures FetchArray(doc, key, cast, f).Success? == FetchArray(doc, key, cast, g).Success?
  {
  }
}

=== FILE: pipeline.dfy ===
/** The top-level script up to the network: load the catalog, sort it, keep
    the 2016 sessions and derive one issue per session, in that order. */
module Pipeline {
  import opened Wrappers
  import opened Document
  import opened Videos
  import opened Importer
  import opened Selection
  import opened Issues

  /** The issues the script would create for a parsed root object, in the
      order their requests are issued; a load failure creates none. */
  function PlanIssues(root: Object): (r: Result<seq<Issue>, LoadError>)
    ensures r.Failure? <==> ImportSessions(root).Failure?
    ensures r.Failure? ==> r.error == ImportSessions(root).error
    ensures r.Success? ==> |r.value| == |Select(ImportSessions(root).value)|
    ensures r.Success? ==> forall i :: 0 <= i < |r.value| ==>
              r.value[i] == MakeIssue(Select(ImportSessions(root).value)[i])
  {
    var videos :- ImportSessions(root);
    var selected := Select(videos);
    Success(seq(|selected|, i requires 0 <= i < |selected| => MakeIssue(selected[i])))
  }

  /** Every planned issue belongs to a 2016 session of the catalog, the
      sessions come in non-increasing id order, and every 2016 session of
      the catalog gets exactly as many issues as it has records. */
  lemma PlanIssuesSpec(root: Object)
    ensures PlanIssues(root).Success? ==>
            var videos := ImportSessions(root).value;
            var selected := Select(videos);
            && SortedDescending(selected)
            && (forall i :: 0 <= i < |selected| ==> selected[i] in videos && selected[i].year == TargetYear)
            && (forall v :: v in videos && v.year == TargetYear ==> multiset(selected)[v] == multiset(videos)[v])
            && (forall i :: 0 <= i < |selected| ==> PlanIssues(root).value[i].labels[0] == Labels.TrackRaw(selected[i].track))
  {
    if PlanIssues(root).Success? {
      var videos := ImportSessions(root).value;
      var selected := Select(videos);
      SelectSpec(videos);
      forall i | 0 <= i < |selected| ensures selected[i] in videos {
        assert multiset(selected)[selected[i]] > 0;
      }
    }
  }
}

=== FILE: selection.dfy ===
/** The top-level selection: videos sorted by `id` descending (`l.id > r.id`),
    then only those from 2016 are turned into issues. */
module Selection {
  import opened Sequences
  import opened Videos

  /** The year whose sessions get an issue. */
  const TargetYear: int := 2016

  /** Lexicographic string order on characters: `a` sorts strictly before `b`. */
  predicate Less(a: string, b: string)
    decreases |a|
  {
    if |b| == 0 then false
    else if |a| == 0 then true
    else if a[0] != b[0] then a[0] < b[0]
    else Less(a[1..], b[1..])
  }

  lemma {:induction false} LessIrreflexive(a: string)
    ensures !Less(a, a)
    decreases |a|
  {
    if |a| > 0 {
      LessIrreflexive(a[1..]);
    }
  }

  lemma {:induction false} LessTransitive(a: string, b: string, c: string)
    requires Less(a, b) && Less(b, c)
    ensures Less(a, c)
    decreases |a|
  {
    if |a| > 0 && a[0] == b[0] && b[0] == c[0] {
      LessTransitive(a[1..], b[1..], c[1..]);
    }
  }

  /** Any two distinct strings are ordered one way or the other. */
  lemma {:induction false} LessTotal(a: string, b: string)
    requires a != b
    ensures Less(a, b) || Less(b, a)
    decreases |a|
  {
    if |a| > 0 && |b| > 0 && a[0] == b[0] {
      assert a == [a[0]] + a[1..] && b == [b[0]] + b[1..];
      LessTotal(a[1..], b[1..]);
    }
  }

  /** `a` sorts at or after `b`: the comparison the sort keeps between neighbours. */
  predicate AtLeast(a: string, b: string) {
    !Less(a, b)
  }

  lemma AtLeastTransitive(a: string, b: string, c: string)
    requires AtLeast(a, b) && AtLeast(b, c)
    ensures AtLeast(a, c)
  {
    if Less(a, c) {
      if a == b {
      } else if b == c {
      } else {
        LessTotal(a, b);
        LessTotal(b, c);
        LessTransitive(c, b, a);
        LessTransitive(a, c, b);
        LessIrreflexive(a);
        LessTransitive(a, c, a);
      }
    }
  }

  /** Ids never increase along the sequence. */
  ghost predicate SortedDescending(vs: seq<Video>) {
    forall i, j :: 0 <= i < j < |vs| ==> AtLeast(vs[i].id, vs[j].id)
  }

  /** Putting a video whose id is at least every other id in front keeps the order. */
  lemma SortedCons(x: Video, vs: seq<Video>)
    requires SortedDescending(vs)
    requires forall y :: y in vs ==> AtLeast(x.id, y.id)
    ensures SortedDescending([x] + vs)
  {
    var r := [x] + vs;
    forall i, j | 0 <= i < j < |r| ensures AtLeast(r[i].id, r[j].id) {
      assert r[j] == vs[j - 1];
      if i > 0 {
        assert r[i] == vs[i - 1];
      }
    }
  }

  /** The tail of a sorted sequence is sorted and bounded by its head. */
  lemma SortedTail(vs: seq<Video>)
    requires SortedDescending(vs) && |vs| > 0
    ensures SortedDescending(vs[1..])
    ensures forall y :: y in vs[1..] ==> AtLeast(vs[0].id, y.id)
  {
    var tail := vs[1..];
    forall i, j | 0 <= i < j < |tail| ensures AtLeast(tail[i].id, tail[j].id) {
      assert tail[i] == vs[i + 1] && tail[j] == vs[j + 1];
    }
    forall y | y in tail ensures AtLeast(vs[0].id, y.id) {
      var j :| 0 <= j < |tail| && tail[j] == y;
      assert vs[j + 1] == y;
    }
  }

  /** An upper bound on every element of two sequences bounds any
      rearrangement of their union. */
  lemma BoundedPermutation(b: string, r: seq<Video>, vs: seq<Video>, v: Video)
    requires multiset(r) == multiset(vs) + multiset{v}
    requires AtLeast(b, v.id)
    requires forall y :: y in vs ==> AtLeast(b, y.id)
    ensures forall x :: x in r ==> AtLeast(b, x.id)
  {
    forall x | x in r ensures AtLeast(b, x.id) {
      assert x in multiset(r);
      if x != v {
        assert x in multiset(vs);
      }
    }
  }

  /** Of two ids, one is at least the other: `Less` is asymmetric. */
  lemma AtLeastConnected(a: string, b: string)
    ensures AtLeast(a, b) || AtLeast(b, a)
  {
    LessIrreflexive(a);
    if Less(a, b) && Less(b, a) {
      LessTransitive(a, b, a);
    }
  }

  /** Inserts `v` before the first video whose id is not greater than its own. */
  function Insert(v: Video, vs: seq<Video>): (r: seq<Video>)
    requires SortedDescending(vs)
    ensures SortedDescending(r)
    ensures multiset(r) == multiset(vs) + multiset{v}
  {
    if |vs| == 0 then [v]
    else
      SortedTail(vs);
      if AtLeast(v.id, vs[0].id) then
        assert forall y :: y in vs ==> AtLeast(v.id, y.id) by {
          forall y | y in vs ensures AtLeast(v.id, y.id) {
            if y != vs[0] {
              assert y in vs[1..] by { assert vs == [vs[0]] + vs[1..]; }
              AtLeastTransitive(v.id, vs[0].id, y.id);
            }
          }
        }
        SortedCons(v, vs);
        [v] + vs
      else
        var rest := Insert(v, vs[1..]);
        assert vs == [vs[0]] + vs[1..];
        AtLeastConnected(v.id, vs[0].id);
        BoundedPermutation(vs[0].id, rest, vs[1..], v);
        SortedCons(vs[0], rest);
        [vs[0]] + rest
  }

  /** `videos.sort { $0.id > $1.id }`: a permutation ordered by descending id.
      Swift's sort promises no stability, so neither does this model. */
  function SortByIdDescending(vs: seq<Video>): (r: seq<Video>)
    ensures SortedDescending(r)
    ensures multiset(r) == multiset(vs)
  {
    if |vs| == 0 then []
    else
      assert vs == [vs[0]] + vs[1..];
      Insert(vs[0], SortByIdDescending(vs[1..]))
  }

  /** The `guard video.year == 2016` of the publishing loop, as a filter. */
  function FilterYear(vs: seq<Video>, year: int): (r: seq<Video>)
    ensures forall i :: 0 <= i < |r| ==> r[i].year == year
    ensures forall v :: multiset(r)[v] == if v.year == year then multiset(vs)[v] else 0
  {
    if |vs| == 0 then []
    else
      assert vs == [vs[0]] + vs[1..];
      (if vs[0].year == year then [vs[0]] else []) + FilterYear(vs[1..], year)
  }

  /** One step of the filter: the head is kept exactly when it has the year. */
  lemma FilterYearUnfold(vs: seq<Video>, year: int)
    requires |vs| > 0
    ensures FilterYear(vs, year) == (if vs[0].year == year then [vs[0]] else []) + FilterYear(vs[1..], year)
  {
  }

  /** The filter keeps the input order: filtering a concatenation filters
      each part and concatenates the results. */
  lemma {:induction false} FilterYearAppend(xs: seq<Video>, ys: seq<Video>, year: int)
    ensures FilterYear(xs + ys, year) == FilterYear(xs, year) + FilterYear(ys, year)
  {
    if |xs| == 0 {
      assert xs + ys == ys;
    } else {
      var head := if xs[0].year == year then [xs[0]] else [];
      var rest := FilterYear(xs[1..], year);
      var other := FilterYear(ys, year);
      FilterYearUnfoldAppend(xs, ys, year);
      FilterYearAppend(xs[1..], ys, year);
      AppendAssoc(head, rest, other);
      FilterYearUnfold(xs, year);
    }
  }

  /** The head of `xs + ys` is the head of `xs`, so one step of the filter
      on the concatenation keeps or drops it. */
  lemma FilterYearUnfoldAppend(xs: seq<Video>, ys: seq<Video>, year: int)
    requires |xs| > 0
    ensures FilterYear(xs + ys, year)
            == (if xs[0].year == year then [xs[0]] else []) + FilterYear(xs[1..] + ys, year)
  {
    assert (xs + ys)[0] == xs[0];
    assert (xs + ys)[1..] == xs[1..] + ys;
    FilterYearUnfold(xs + ys, year);
  }

  /** Filtering keeps a subsequence, so a descending order survives it. */
  lemma {:induction false} FilterYearKeepsOrder(vs: seq<Video>, year: int)
    requires SortedDescending(vs)
    ensures SortedDescending(FilterYear(vs, year))
  {
    if |vs| > 0 {
      var tail := vs[1..];
      SortedTail(vs);
      FilterYearKeepsOrder(tail, year);
      var rest := FilterYear(tail, year);
      if vs[0].year == year {
        forall x | x in rest ensures AtLeast(vs[0].id, x.id) {
          assert x in multiset(rest);
          assert x in multiset(tail);
        }
        SortedCons(vs[0], rest);
      }
    }
  }

  /** The videos that get an issue, in the order their issues are created. */
  function Select(vs: seq<Video>): seq<Video> {
    FilterYear(SortByIdDescending(vs), TargetYear)
  }

  /** The selection holds exactly the 2016 videos of the catalog, each as
      often as in the catalog, with ids never increasing. */
  lemma SelectSpec(vs: seq<Video>)
    ensures SortedDescending(Select(vs))
    ensures forall i :: 0 <= i < |Select(vs)| ==> Select(vs)[i].year == TargetYear
    ensures forall v :: multiset(Select(vs))[v] == if v.year == TargetYear then multiset(vs)[v] else 0
  {
    FilterYearKeepsOrder(SortByIdDescending(vs), TargetYear);
  }

  /** Sorting an already sorted catalog whose ids are distinct returns it
      unchanged. With a repeated id the
      order of the equal videos is not promised. */
  lemma {:induction false} SortOfSortedIsIdentity(vs: seq<Video>)
    requires SortedDescending(vs)
    requires forall i, j :: 0 <= i < j < |vs| ==> vs[i].id != vs[j].id
    ensures SortByIdDescending(vs) == vs
  {
    if |vs| > 0 {
      var tail := vs[1..];
      SortedTail(vs);
      SortOfSortedIsIdentity(tail);
      if |tail| > 0 {
        assert AtLeast(vs[0].id, tail[0].id);
      }
      assert vs == [vs[0]] + tail;
    }
  }

  /** Three ids out of order come out in descending order. */
  lemma SortExample(a: Video, b: Video, c: Video)
    requires a.id == "a" && b.id == "b" && c.id == "c"
    ensures SortByIdDescending([b, a, c]) == [c, b, a]
  {
    var xs := [b, a, c];
    assert xs[1..] == [a, c];
    SortExampleTail(a, c);
    SortExampleInsert(a, b, c);
  }

  lemma SortExampleInsert(a: Video, b: Video, c: Video)
    requires a.id == "a" && b.id == "b" && c.id == "c"
    ensures SortedDescending([c, a])
    ensures Insert(b, [c, a]) == [c, b, a]
  {
    assert Less("b", "c") && Less("a", "c") && Less("a", "b");
    assert [c, a][1..] == [a];
    assert Insert(b, [a]) == [b, a];
  }

  lemma SortExampleTail(a: Video, c: Video)
    requires a.id == "a" && c.id == "c"
    ensures SortByIdDescending([a, c]) == [c, a]
  {
    var xs := [a, c];
    assert xs[1..] == [c] && xs[1..][1..] == [];
    assert Less("a", "c");
    assert SortByIdDescending([c]) == [c];
  }
}

=== FILE: sequences.dfy ===
/** Facts about sequences shared by the string-building and filtering proofs. */
module Sequences {

  /** Concatenation is associative; the solver does not always regroup a
      long chain of `+` on its own. */
  lemma AppendAssoc<T>(a: seq<T>, b: seq<T>, c: seq<T>)
    ensures a + (b + c) == (a + b) + c
  {
  }
}

=== FILE: videos.dfy ===
/** The session record (`Video`) and its all-or-nothing decoder (`Video.init`). */
module Videos {
  import opened Wrappers
  import opened Document
  import opened Labels
  import opened Parser

  datatype Video = Video(
    id: string,
    title: string,
    description: string,
    focus: seq<Platform>,
    track: Track,
    year: int)

  /** The fields a record must carry, in the order the decoder reads them. */
  const Fields: seq<string> := ["id", "title", "description", "focus", "track", "year"]

  /** Field `name` holds a string. */
  predicate StringField(doc: Object, name: string) {
    name in doc && doc[name].Str?
  }

  /** Field `name` holds an array whose elements are all strings. */
  predicate StringArrayField(doc: Object, name: string) {
    name in doc && doc[name].Arr? && forall i :: 0 <= i < |doc[name].items| ==> doc[name].items[i].Str?
  }

  /** Field `name` holds the label of a known track. */
  predicate TrackField(doc: Object, name: string) {
    name in doc && doc[name].Str? && exists t: Track :: TrackRaw(t) == doc[name].s
  }

  /** Field `name` holds an integer. */
  predicate IntField(doc: Object, name: string) {
    name in doc && doc[name].Int?
  }

  /** Whether the `n`-th field of `Fields` is present with a value the
      decoder accepts. */
  predicate WellFormedField(doc: Object, n: nat)
    requires n < |Fields|
  {
    match n
    case 3 => StringArrayField(doc, Fields[3])
    case 4 => TrackField(doc, Fields[4])
    case 5 => IntField(doc, Fields[5])
    case _ => StringField(doc, Fields[n])
  }

  /** Every field of `Fields` is well formed. */
  predicate WellFormedRecord(doc: Object) {
    && StringField(doc, "id")
    && StringField(doc, "title")
    && StringField(doc, "description")
    && StringArrayField(doc, "focus")
    && TrackField(doc, "track")
    && IntField(doc, "year")
  }

  /** The two views of a well-formed record agree: checking every field by
      position is checking the six named fields. */
  lemma WellFormedAgree(doc: Object)
    ensures WellFormedRecord(doc) <==> forall n :: 0 <= n < |Fields| ==> WellFormedField(doc, n)
  {
    if forall n :: 0 <= n < |Fields| ==> WellFormedField(doc, n) {
      assert WellFormedField(doc, 0) && WellFormedField(doc, 1) && WellFormedField(doc, 2);
      assert WellFormedField(doc, 3) && WellFormedField(doc, 4) && WellFormedField(doc, 5);
    }
  }

  /** The decoder's failure is reported for the first field, in `Fields`
      order, that is not well formed. */
  ghost predicate FirstBadField(doc: Object, key: string) {
    exists n :: 0 <= n < |Fields| && Fields[n] == key && !WellFormedField(doc, n)
                && forall m :: 0 <= m < n ==> WellFormedField(doc, m)
  }

  /** `Video.init(dictionary:)`: reads id, title, description, focus, track and
      year in that order and stops at the first failure. */
  function Decode(doc: Object): Result<Video, ParseError> {
    var id :- Fetch(doc, "id", AsString);
    var title :- Fetch(doc, "title", AsString);
    var description :- Fetch(doc, "description", AsString);
    var focus :- FetchArray(doc, "focus", AsString, PlatformFromRaw);
    var track :- FetchTransformed(doc, "track", AsString, TrackFromRaw);
    var year :- Fetch(doc, "year", AsInt);
    Success(Video(id, title, description, focus, track, year))
  }

  /** Decoding is all-or-nothing: it succeeds exactly when every field is well formed. */
  lemma DecodeSucceedsIffWellFormed(doc: Object)
    ensures Decode(doc).Success? <==> WellFormedRecord(doc)
  {
  }

  /** A successful decode copies every field verbatim; only the focus list is
      filtered, keeping the known platform labels in their original order. */
  lemma DecodeCopiesFields(doc: Object)
    requires Decode(doc).Success?
    ensures WellFormedRecord(doc)
    ensures var v := Decode(doc).value;
            && v.id == doc["id"].s
            && v.title == doc["title"].s
            && v.description == doc["description"].s
            && TrackRaw(v.track) == doc["track"].s
            && v.year == doc["year"].i
            && v.focus == FilterMap(PlatformFromRaw, ArrayOf(AsString, doc["focus"]).value)
  {
  }

  /** A failed decode names the first ill-formed field. */
  lemma DecodeReportsFirstBadField(doc: Object)
    requires Decode(doc).Failure?
    ensures FirstBadField(doc, Decode(doc).error.key)
  {
    if !StringField(doc, "id") {
      FailsAtId(doc);
      FirstBadAt(doc, 0);
    } else if !StringField(doc, "title") {
      FailsAtTitle(doc);
      FirstBadAt(doc, 1);
    } else if !StringField(doc, "description") {
      FailsAtDescription(doc);
      FirstBadAt(doc, 2);
    } else if !StringArrayField(doc, "focus") {
      FailsAtFocus(doc);
      FirstBadAt(doc, 3);
    } else if !TrackField(doc, "track") {
      FailsAtTrack(doc);
      FirstBadAt(doc, 4);
    } else {
      FailsAtYear(doc);
      FirstBadAt(doc, 5);
    }
  }

  /** A failed decode says why: a missing key exactly when the named key is
      absent, a rejected transformation exactly for a string track with an
      unknown label, a wrong type otherwise. */
  lemma DecodeErrorKind(doc: Object)
    requires Decode(doc).Failure?
    ensures var e := Decode(doc).error;
            && (e.MissingKey? <==> e.key !in doc)
            && (e.NotTransformed? <==> e.key == "track" && e.key in doc && doc[e.key].Str?)
  {
  }

  /** Each failure case of the decoder, with the field it stops at. */
  lemma FailsAtId(doc: Object)
    requires !StringField(doc, "id")
    ensures Decode(doc) == Failure(Fetch(doc, "id", AsString).error)
    ensures Decode(doc).error.key == "id" && !Decode(doc).error.NotTransformed?
  {
  }

  lemma FailsAtTitle(doc: Object)
    requires StringField(doc, "id") && !StringField(doc, "title")
    ensures Decode(doc) == Failure(Fetch(doc, "title", AsString).error)
    ensures Decode(doc).error.key == "title" && !Decode(doc).error.NotTransformed?
  {
  }

  lemma FailsAtDescription(doc: Object)
    requires StringField(doc, "id") && StringField(doc, "title") && !StringField(doc, "description")
    ensures Decode(doc) == Failure(Fetch(doc, "description", AsString).error)
    ensures Decode(doc).error.key == "description" && !Decode(doc).error.NotTransformed?
  {
  }

  lemma FailsAtFocus(doc: Object)
    requires StringField(doc, "id") && StringField(doc, "title") && StringField(doc, "description")
    requires !StringArrayField(doc, "focus")
    ensures Decode(doc) == Failure(FetchArray(doc, "focus", AsString, PlatformFromRaw).error)
    ensures Decode(doc).error.key == "focus" && !Decode(doc).error.NotTransformed?
  {
  }

  lemma FailsAtTrack(doc: Object)
    requires StringField(doc, "id") && StringField(doc, "title") && StringField(doc, "description")
    requires StringArrayField(doc, "focus") && !TrackField(doc, "track")
    ensures Decode(doc) == Failure(FetchTransformed(doc, "track", AsString, TrackFromRaw).error)
    ensures Decode(doc).error.key == "track"
  {
  }

  lemma FailsAtYear(doc: Object)
    requires StringField(doc, "id") && StringField(doc, "title") && StringField(doc, "description")
    requires StringArrayField(doc, "focus") && TrackField(doc, "track") && !IntField(doc, "year")
    ensures Decode(doc) == Failure(Fetch(doc, "year", AsInt).error)
    ensures Decode(doc).error.key == "year" && !Decode(doc).error.NotTransformed?
  {
  }

  lemma FirstBadAt(doc: Object, n: nat)
    requires n < |Fields| && !WellFormedField(doc, n)
    requires forall m :: 0 <= m < n ==> WellFormedField(doc, m)
    ensures FirstBadField(doc, Fields[n])
  {
  }

  /** The strict scalar transform: a string track that names no known track
      fails the whole record, even when every earlier field is well formed. */
  lemma UnknownTrackFailsRecord(doc: Object)
    requires StringField(doc, "id") && StringField(doc, "title")
    requires StringField(doc, "description") && StringArrayField(doc, "focus")
    requires "track" in doc && doc["track"].Str?
    requires TrackFromRaw(doc["track"].s) == None
    ensures Decode(doc) == Failure(NotTransformed("track", doc["track"]))
  {
  }

  /** The lenient array transform: appending a focus string that names no
      platform leaves the decoded record unchanged. */
  lemma UnknownFocusDropped(doc: Object, unknown: string)
    requires "focus" in doc && ArrayOf(AsString, doc["focus"]).Some?
    requires PlatformFromRaw(unknown) == None
    ensures var doc' := doc["focus" := Arr(doc["focus"].items + [Str(unknown)])];
            Decode(doc') == Decode(doc)
  {
    var items := doc["focus"].items;
    var items' := items + [Str(unknown)];
    var doc' := doc["focus" := Arr(items')];
    var strings := ArrayOf(AsString, Arr(items)).value;
    var strings' := ArrayOf(AsString, Arr(items'));
    assert strings'.Some? by {
      assert forall i :: 0 <= i < |items'| ==> items'[i] == if i < |items| then items[i] else Str(unknown);
    }
    assert strings'.value == strings + [unknown] by {
      assert forall i :: 0 <= i < |items| ==> items'[i] == items[i];
      assert items'[|items|] == Str(unknown);
    }
    FilterMapAppend(PlatformFromRaw, strings, [unknown]);
    assert FilterMap(PlatformFromRaw, [unknown]) == [];
    var before := FetchArray(doc, "focus", AsString, PlatformFromRaw);
    var after := FetchArray(doc', "focus", AsString, PlatformFromRaw);
    assert before.Success? && after.Success?;
    assert after.value == before.value;
    SameFieldsSameDecode(doc, doc');
  }

  /** The decoder looks at nothing but the six fetches. */
  lemma SameFieldsSameDecode(doc: Object, doc': Object)
    requires forall k :: k != "focus" ==> (k in doc' <==> k in doc)
    requires forall k :: k != "focus" && k in doc ==> doc'[k] == doc[k]
    requires FetchArray(doc', "focus", AsString, PlatformFromRaw) == FetchArray(doc, "focus", AsString, PlatformFromRaw)
    ensures Decode(doc') == Decode(doc)
  {
    assert Fetch(doc', "id", AsString) == Fetch(doc, "id", AsString);
    assert Fetch(doc', "title", AsString) == Fetch(doc, "title", AsString);
    assert Fetch(doc', "description", AsString) == Fetch(doc, "description", AsString);
    assert FetchTransformed(doc', "track", AsString, TrackFromRaw) == FetchTransformed(doc, "track", AsString, TrackFromRaw);
    assert Fetch(doc', "year", AsInt) == Fetch(doc, "year", AsInt);
  }

  /** The lenient array transform on a concrete focus list: an unknown
      platform in the middle is dropped and the order of the rest is kept. */
  lemma FocusExample()
    ensures FilterMap(PlatformFromRaw, ["iOS", "Linux", "macOS"]) == [iOS, macOS]
  {
    var xs := ["iOS", "Linux", "macOS"];
    assert xs[1..] == ["Linux", "macOS"] && xs[1..][1..] == ["macOS"] && xs[1..][1..][1..] == [];
  }
}

=== FILE: wrappers.dfy ===
/** Failure-compatible wrappers used throughout the model: `Option` for the
    source's optionals and `Result` for its thrown errors and fatal exits. */
module Wrappers {

  datatype Option<+T> = None | Some(value: T) {

    predicate IsFailure() {
      None?
    }

    function PropagateFailure<U>(): Option<U>
      requires None?
    {
      None
    }

    function Extract(): T
      requires Some?
    {
      value
    }
  }

  datatype Result<+T, +E> = Success(value: T) | Failure(error: E) {

    predicate IsFailure() {
      Failure?
    }

    function PropagateFailure<U>(): Result<U, E>
      requires Failure?
    {
      Failure(error)
    }

    function Extract(): T
      requires Success?
    {
      value
    }
  }
}
